=== FILE: README.md ===
# Competitor-analysis pipeline: a Dafny model

This project models the data handling of the competitor-analysis backend up to the point where the competitor descriptions go to the language model. Both variants of the pipeline are covered.

- **Two-query pipeline (`competitor_analysis.py`).**
  - It derives a company name from the startup URL and runs two web searches: the name, and `"<name> competitors"`.
  - It filters each result list. The filter compares the extracted domain of each result against `EXCLUDED_DOMAINS` (see below) and drops titles containing an `EXCLUDED_TITLES` fragment.
  - It merges the two lists and removes duplicate URLs with a dictionary keyed by URL.
  - It stops with `"No relevant competitors found."` when nothing is left.
  - Otherwise it scrapes each competitor's homepage and builds the `Name / URL / Text Extracted` description block.
- **Thorough pipeline (`backend.py`).**
  - It runs one `"<name> competitors"` search, with no filtering and no de-duplication.
  - It stops with `"No competitors found."` when the search has no organic results.
  - A result without a `title` or `link` key raises `KeyError`.
  - Otherwise it scrapes each result's homepage plus up to three product pages. `find_product_links` picks them: hrefs that match `product`/`solution` case-insensitively, joined to the base URL, without repeats, in anchor order.

Modules follow the program's steps:

| module | file | covers |
|---|---|---|
| `Seqs` | `seqs.dfy` | sequence vocabulary (distinct, first occurrence, order-preserving filter, substring search, flattening) |
| `Wrappers` | `wrappers.dfy` | `Option` |
| `Keywords` | `keywords.dfy` | the case-insensitive keyword search of `find_product_links` |
| `SearchResults` | `search_results.dfy` | `filter_search_results` and the de-duplicating dictionary |
| `ProductLinks` | `product_links.dfy` | `find_product_links` |
| `Scraper` | `scraper.dfy` | both `scrape_competitor_website` functions |
| `Descriptions` | `descriptions.dfy` | the description block |
| `Pipeline` | `pipeline.dfy` | both `fetch_competitor_info` functions |

Everything outside the program enters as a function-typed parameter, so every result holds for every collaborator that answers the same argument the same way within one run:

- the search service: `search: string -> SearchResponse`, where a failed request is a response without `organic`;
- `tldextract`'s domain: `domain: string -> string`;
- `scrape_page_text`, the anchor list of a fetched page and `urljoin`: a `Web` value.

Two points of the code are easy to misread:

- **Duplicate URLs.** The de-duplication at competitor_analysis.py:80 carries only the comment `# Remove duplicates`. A "first record wins" reading is wrong. The dict comprehension `{r["url"]: r for r in rs}.values()` keeps each URL at its *first* position, but with the *last* record assigned to it. `DedupKeepsLastRecord`, `DedupByUrlFirstOccurrenceOrder` and `CompetitorsQueryRecordWins` state this behaviour.
- **Domain denylist.** The entries of `EXCLUDED_DOMAINS` carry a suffix (`"g2.com"`, competitor_analysis.py:18). The value tested against them is `tldextract.extract(url).domain` (competitor_analysis.py:40), and the test is exact list membership (competitor_analysis.py:42). The model keeps the exact membership. `SuffixFreeDomainIsNotExcluded` shows the consequence: a domain without a dot never matches an entry, and that includes the `g2` that `tldextract` yields for `www.g2.com`.

## Model

| member | source | states |
|---|---|---|
| Keywords.FoldChar | backend.py:52 | The character that an href character is folded to before it is compared, under `re.IGNORECASE`, with a lower-case ASCII pattern. `MatchIgnoresAsciiCase` characterises it. |
| Keywords.MatchesKeyword | backend.py:52 | `re.search(kw, href, re.IGNORECASE)` for a lower-case ASCII-word pattern: `kw` occurs in the folded href. `KeywordAnywhereMatches` and `MatchIgnoresAsciiCase` characterise it. |
| Keywords.IsProductLink | backend.py:52 | The `any(...)` over the patterns. `PluralKeywordsAreRedundant` characterises it for the defaults. |
| SearchResults.ToRecord | competitor_analysis.py:38-39 | The record `{name: title, url: link}` with `""` for a missing key. `FilterSearchResultsKeepsOrder` says each survivor is the `ToRecord` of its result. |
| SearchResults.Admissible | competitor_analysis.py:40-43 | Both exclusion tests of the filter. `FilterSearchResultsKeepsOrder` says result `i` is kept exactly when it is admissible. |
| Keywords.MatchIgnoresAsciiCase | backend.py:52 | Upper-casing the ASCII letters of an href never changes whether it matches a keyword (the `re.IGNORECASE` flag). |
| Keywords.KeywordAnywhereMatches | backend.py:52 | `re.search` is unanchored: any href that contains a lower-case keyword anywhere, with arbitrary text around it, is a product link. |
| Keywords.PluralKeywordsAreRedundant | backend.py:46-52 | With the default patterns, an href is a product link exactly when it contains `product` or `solution`; `products` and `solutions` select nothing more. |
| SearchResults.FilterSearchResults | competitor_analysis.py:34-46 | At most one record per organic result. A response without `organic` gives no records. Every surviving record has a domain outside `EXCLUDED_DOMAINS` and a title without `"Alternatives & Competitors"`. |
| SearchResults.FilterSearchResultsKeepsOrder | competitor_analysis.py:36-45 | The output is exactly the records of the organic results that pass both checks, in response order. Result `i` is kept if and only if it passes. |
| SearchResults.SuffixFreeDomainIsNotExcluded | competitor_analysis.py:40-42 | The denylist is exact membership: a result whose extracted domain has no dot, and whose title is clean, always survives the filter. |
| SearchResults.Assign | competitor_analysis.py:80 | One assignment `d[r["url"]] = r` on an insertion-ordered dict held as its value list. `AssignUrls` and `AssignKeepsLastRecords` characterise it. |
| SearchResults.DedupByUrl | competitor_analysis.py:80 | The values of the dict comprehension. `DedupUrlsAreUnique` and `DedupKeepsLastRecord` characterise it. |
| SearchResults.AssignUrls | competitor_analysis.py:80 | One dictionary assignment appends its URL as a new key when it is absent and leaves the key order alone when it is present. |
| SearchResults.DedupUrlsAreUnique | competitor_analysis.py:80 | The URLs of the de-duplicated list are the distinct input URLs, in order of first occurrence. |
| SearchResults.DedupKeepsLastRecord | competitor_analysis.py:80 | Each de-duplicated entry is the last input record carrying its URL. |
| SearchResults.DedupRecordsAreInputRecords | competitor_analysis.py:80 | Every de-duplicated entry is a record of the input. |
| SearchResults.DedupByUrlKeys | competitor_analysis.py:80-83 | No URL occurs twice. A URL is present if and only if some input record has it. The result is empty if and only if the input is empty, which is the emptiness test at line 82. |
| SearchResults.DedupByUrlFirstOccurrenceOrder | competitor_analysis.py:80 | Entries are ordered by the first input position of their URLs. |
| SearchResults.DedupPrefersLaterRecord | competitor_analysis.py:79-80 | A URL of the second list survives merging, and only with a record of the second list. |
| ProductLinks.MatchingUrlsAreProductJoins | backend.py:50-53 | The scanned URLs are exactly the joins of the hrefs that match a keyword. Each one comes from a matching href, and every matching href contributes. |
| ProductLinks.FirstProductLinks | backend.py:46-56 | For lower-case ASCII-word patterns: at most three links, no repeats, each the join of a matching href. A matching href is missing only when three links were already taken. |
| ProductLinks.FirstProductLinksFollowAnchorOrder | backend.py:49-56 | The links are the first `min(3, n)` of the repeat-free matches. They follow the order in which their URLs first appear among the anchors. |
| ProductLinks.FindProductLinks | backend.py:46-56 | For lower-case ASCII-word patterns, `find_product_links` returns exactly the selection `FirstProductLinks` specifies: the scanned list cut by `[:3]`. |
| ProductLinks.ScanAnchors | backend.py:48-55 | The anchor loop with its `not in` check builds exactly the repeat-free list of matching joined URLs, in order of first appearance. |
| ProductLinks.ScanUrlsAreUniqueMatches | backend.py:48-55 | Appending each matching joined URL unless it is already present, anchor by anchor, yields the matching URLs of all anchors with every repeat after the first dropped. |
| Scraper.SelectedLinks | backend.py:63-66 | The product pages visited are at most three and distinct, each a keyword-matching link of the page. There are none when fetching or parsing the page fails. |
| Scraper.ScrapeHomepage | competitor_analysis.py:59-63 | The homepage-only scrape. `HomepageScrapeFormat` characterises it. |
| Scraper.ScrapeSite | backend.py:59-71 | The thorough scrape. `ScrapeSiteExtendsHomepage`, `CollectProductTexts` and `ProductSectionInOrder` characterise it. |
| Scraper.HomepageScrapeFormat | competitor_analysis.py:59-63 | The homepage-only scrape is `Homepage:` and a newline, followed by exactly the page text. |
| Scraper.ScrapeSiteExtendsHomepage | backend.py:59-71 | The thorough scrape begins with the homepage-only scrape of competitor_analysis.py and the `Product Pages` heading, followed by the product text. A failed anchor fetch or parse leaves only the homepage part: the scrape is fail-soft. |
| Scraper.CollectProductTexts | backend.py:62-68 | The `product_texts +=` loop produces one newline-led section per link, concatenated in link order. |
| Scraper.ProductSectionInOrder | backend.py:67-68 | The section of link `k` appears verbatim right after the sections of the links before it. |
| Scraper.ProductTextsLength | backend.py:67-68 | The product text is exactly one newline per link plus the page texts, and contains nothing else. |
| Descriptions.Block | competitor_analysis.py:98 | The paragraph of one competitor, the same f-string as backend.py:93. `BlockInDescription` places it in the block. |
| Descriptions.Describe | competitor_analysis.py:96-98 | The concatenated paragraphs of all competitors. `BuildDescriptions`, `BlockInDescription` and `DescribeConcat` characterise it. |
| Descriptions.BuildDescriptions | competitor_analysis.py:96-98 | The `competitor_descriptions +=` loop produces the paragraphs of all competitors in order. |
| Descriptions.BlockInDescription | backend.py:91-93 | The paragraph of competitor `k` appears verbatim right after the paragraphs of the competitors before it. |
| Descriptions.DescribeConcat | competitor_analysis.py:96-98 | Describing two lists in turn equals describing their concatenation. |
| Pipeline.MergedResults | competitor_analysis.py:71-79 | The filtered name-query results followed by the filtered competitors-query results. `MergedResultsAdmissible` characterises it. |
| Pipeline.ScrapeAll | competitor_analysis.py:86-93 | One detail per record, in record order, carrying the record's name and URL and the scrape of that URL. |
| Pipeline.FetchCompetitorInfo | competitor_analysis.py:68-98 | Never a `KeyError`. The result is the "No relevant competitors found." message exactly when no filtered result is left. Otherwise it is a non-empty analysis whose descriptions are built from its details. |
| Pipeline.ReportOnMerged | competitor_analysis.py:80-98 | After the merge, the pipeline stops exactly when the merged list is empty. Otherwise it returns a non-empty analysis described from its details. |
| Pipeline.MergedResultsAdmissible | competitor_analysis.py:79 | Every merged record passed the exclusion checks of its own query. |
| Pipeline.ScrapeDedupVisitsEachUrlOnce | competitor_analysis.py:80-93 | Scraping the de-duplicated records visits each merged URL exactly once, under a merged record, keeping that URL's scrape. |
| Pipeline.ReportOnMergedScrapesEachUrlOnce | competitor_analysis.py:80-93 | Every URL of the merged list gets exactly one detail, under one of its records, whose text is its homepage scrape. There is one detail per de-duplicated record, in the de-duplicated order. |
| Pipeline.FetchCompetitorInfoScrapesEachUrlOnce | competitor_analysis.py:68-93 | Every competitor URL found is scraped exactly once, and each detail's homepage text is the scrape of its URL. Every detail comes from a result that passed the filter. |
| Pipeline.NoResultsMeansNoRelevantCompetitors | competitor_analysis.py:75-83 | When neither of the two queries the run sends yields organic results (including failed queries), the run ends with "No relevant competitors found.". |
| Pipeline.CompetitorsQueryRecordWins | competitor_analysis.py:75-80 | A URL returned by the `"<name> competitors"` query is described, and only under that query's record, whatever the name query returned. |
| Pipeline.LaterRecordWins | competitor_analysis.py:79-92 | For any merged list `a + b`, a URL of `b` reaches the details, and only with a record of `b`. |
| Pipeline.FirstMissingKey | backend.py:83-85 | `None` exactly when every result has both keys. Otherwise the key reported is the one the first incomplete result lacks, with `"title"` read before `"link"`. |
| Pipeline.BackendFetchCompetitorInfo | backend.py:74-93 | "No competitors found." exactly when there are no organic results. A `KeyError` exactly when some result lacks a key, naming the key the first incomplete result lacks. Otherwise one detail per result, in order, with its title, its link and the thorough scrape of that link, and the descriptions built from the details. |
| Pipeline.BackendKeepsEveryResult | backend.py:76-89 | No filtering and no de-duplication: every organic result, denylisted or repeated, gets its own detail, whose text starts with its homepage scrape. |

## Left out

- Network I/O is not modelled. The search requests to the search service and the page fetches are parameters: `search` and the functions of `Web`. This includes the request timeout and the printed error messages.
- HTML parsing is not modelled. What `scrape_page_text` extracts from `<p>` elements, and which `<a href>` elements BeautifulSoup finds, are uninterpreted functions of `Web`.
- ProductLinks.FindProductLinks: only keyword patterns that are lower-case ASCII words are modelled (`requires PlainPatterns(keywords)`, also on `MatchingUrls`, `FirstProductLinks`, `ScanAnchors` and their lemmas). For such a pattern, `re.search(pattern, href, re.IGNORECASE)` is a case-insensitive substring test. Patterns with capitals or regular-expression metacharacters, and an invalid pattern whose `re.error` the `except` at backend.py:69-70 swallows, are not modelled. The one caller (backend.py:66) passes the default patterns, and `SelectedLinks` discharges the requirement for them with `ProductKeywordsAreLowerAsciiWords`.
- ProductLinks.FirstProductLinks: the same restriction to lower-case ASCII-word patterns, for the same reason.
- `tldextract` and `urljoin` are uninterpreted functions. `join` is total, so the model always yields the product pages of the selected links. In the code, a `ValueError` from `urljoin` inside the product-page `try` is caught at backend.py:69-70, and the whole product part is then empty.
- Scraper.ScrapeHomepage: the `except` branch of `scrape_competitor_website` in competitor_analysis.py, which returns "Could not scrape data.", is not modelled. `scrape_page_text` catches every exception, so that branch cannot be reached.
- The language-model calls, the prompt text around the descriptions, and the error strings returned when those calls fail are left out. They are foreign calls whose outcome the code does not inspect.
- Non-object entries in `organic` are left out, and so are JSON `null` values for `title` or `link`. A missing key is `None`. In competitor_analysis.py, `.get` turns it into `""`; in backend.py, indexing turns it into `KeyError`.
- Pipeline.BackendFetchCompetitorInfo: a URL fetched twice in one run of backend.py is assumed to return the same text both times. That covers a result repeated in `organic` (backend.py:83-86) and a product link that joins back to the competitor URL (fetched at backend.py:61 and :68). `pageText` and `anchors` are functions of the URL, so a timeout or failure on only one of the two fetches is not modelled.
- Pipeline.BackendFetchCompetitorInfo: the result on a `KeyError` records only which key was missing. The sites scraped before the error have no effect on the returned value, so the model does not record them.
- `app.py`, `tam_calculation.py`, environment loading and client construction are outside the core and are not part of this model.

=== FILE: descriptions.dfy ===
/** The text block that both pipelines embed in the analysis prompt: one
    `Name / URL / Text Extracted` paragraph per scraped competitor. */
module Descriptions {
  import opened Seqs

  /** `{"name": ..., "url": ..., "raw_text": ...}` of one scraped competitor. */
  datatype CompetitorDetail = CompetitorDetail(name: string, url: string, rawText: string)

  /** The paragraph written for one competitor. */
  function Block(d: CompetitorDetail): string {
    "Name: " + d.name + "\nURL: " + d.url + "\nText Extracted:\n" + d.rawText + "\n\n"
  }

  /** The paragraphs of all competitors, in order. */
  function Describe(ds: seq<CompetitorDetail>): string {
    Flatten(Map(ds, Block))
  }

  /** The description loop: `competitor_descriptions += <paragraph>` for
      each competitor in turn, starting from the empty string. */
  method BuildDescriptions(ds: seq<CompetitorDetail>) returns (text: string)
    ensures text == Describe(ds)
  {
    text := "";
    var i := 0;
    while i < |ds|
      invariant 0 <= i <= |ds|
      invariant text == Describe(ds[..i])
    {
      assert Map(ds[..i + 1], Block) == Map(ds[..i], Block) + [Block(ds[i])];
      text := text + Block(ds[i]);
      i := i + 1;
    }
    assert ds[..i] == ds;
  }

  /** The paragraph of competitor `k` appears verbatim right after the
      paragraphs of the competitors before it: one paragraph per
      competitor, in competitor order, nothing between them. */
  lemma {:induction false} BlockInDescription(ds: seq<CompetitorDetail>, k: nat)
    requires k < |ds|
    ensures var start := |Describe(ds[..k])|;
      start + |Block(ds[k])| <= |Describe(ds)| &&
      Describe(ds)[start..start + |Block(ds[k])|] == Block(ds[k])
  {
    var pieces := Map(ds, Block);
    PieceInFlatten(pieces, k);
    assert pieces[..k] == Map(ds[..k], Block);
  }

  /** Describing two lists one after the other is describing their concatenation. */
  lemma {:induction false} DescribeConcat(a: seq<CompetitorDetail>, b: seq<CompetitorDetail>)
    ensures Describe(a + b) == Describe(a) + Describe(b)
  {
    assert Map(a + b, Block) == Map(a, Block) + Map(b, Block);
    FlattenConcat(Map(a, Block), Map(b, Block));
  }
}

=== FILE: keywords.dfy ===
/** Keyword search over anchor hrefs, as `re.search(pattern, href,
    re.IGNORECASE)` behaves when every pattern is a word of lower-case ASCII
    letters: such a pattern has no metacharacters, so a regular-expression
    search is an unanchored, case-insensitive substring search. */
module Keywords {
  import opened Seqs

  /** The default `keyword_patterns` of `find_product_links`. */
  const ProductKeywords: seq<string> := ["product", "products", "solution", "solutions"]

  /** A pattern made only of the letters `a` to `z`. */
  predicate IsLowerAsciiWord(w: string) {
    forall i :: 0 <= i < |w| ==> 'a' <= w[i] <= 'z'
  }

  /** Patterns for which a case-insensitive regular-expression search is a
      case-insensitive substring search: every one a lower-case ASCII word. */
  predicate PlainPatterns(keywords: seq<string>) {
    forall kw :: kw in keywords ==> IsLowerAsciiWord(kw)
  }

  /** The letter a character is compared as when Python's regular expression
      engine matches it case-insensitively against a lower-case ASCII letter:
      `A`-`Z` lower-case to `a`-`z`; capital I with dot above and the Kelvin
      sign lower-case to `i` and `k`; dotless i and long s are declared
      equivalent to `i` and `s`. Every other character stands for itself. */
  function FoldChar(c: char): char {
    if 'A' <= c <= 'Z' then (c as int + 32) as char
    else if c == '\U{0130}' || c == '\U{0131}' then 'i'
    else if c == '\U{017F}' then 's'
    else if c == '\U{212A}' then 'k'
    else c
  }

  /** The case-folded form of a whole string. */
  function Fold(s: string): string {
    Map(s, FoldChar)
  }

  /** `A`-`Z` to upper case, everything else unchanged. */
  function UpperChar(c: char): char {
    if 'a' <= c <= 'z' then (c as int - 32) as char else c
  }

  /** `re.search(kw, href, re.IGNORECASE)` finds a match. */
  predicate MatchesKeyword(href: string, kw: string) {
    IsSubstring(kw, Fold(href))
  }

  /** `any(re.search(p, href, re.IGNORECASE) for p in keywords)`. */
  predicate IsProductLink(href: string, keywords: seq<string>) {
    exists kw :: kw in keywords && MatchesKeyword(href, kw)
  }

  /** Folding works character by character, so it distributes over concatenation. */
  lemma FoldConcat(a: string, b: string)
    ensures Fold(a + b) == Fold(a) + Fold(b)
  {
    assert forall i :: 0 <= i < |a + b| ==> Fold(a + b)[i] == (Fold(a) + Fold(b))[i];
  }

  /** A lower-case ASCII word is its own folded form. */
  lemma FoldLowerAsciiWord(w: string)
    requires IsLowerAsciiWord(w)
    ensures Fold(w) == w
  {
    assert forall i :: 0 <= i < |w| ==> Fold(w)[i] == w[i];
  }

  /** Upper-casing the ASCII letters of an href never changes whether it
      matches a keyword. */
  lemma {:induction false} MatchIgnoresAsciiCase(href: string, kw: string)
    ensures MatchesKeyword(Map(href, UpperChar), kw) <==> MatchesKeyword(href, kw)
  {
    var up := Map(href, UpperChar);
    forall i | 0 <= i < |href|
      ensures Fold(up)[i] == Fold(href)[i]
    {
      var c := href[i];
      if 'a' <= c <= 'z' {
        assert (((c as int - 32) as char) as int + 32) as char == c;
      }
    }
    assert Fold(up) == Fold(href);
  }

  /** The search is unanchored: a keyword surrounded by anything at all,
      as in `/byproduct-news`, still selects the href. */
  lemma {:induction false} KeywordAnywhereMatches(before: string, kw: string, after: string, keywords: seq<string>)
    requires kw in keywords && IsLowerAsciiWord(kw)
    ensures IsProductLink(before + kw + after, keywords)
  {
    var h := before + kw + after;
    FoldConcat(before + kw, after);
    FoldConcat(before, kw);
    FoldLowerAsciiWord(kw);
    assert Fold(h) == Fold(before) + kw + Fold(after);
    assert Fold(h)[|before|..|before| + |kw|] == kw;
    assert OccursAt(kw, Fold(h), |before|);
    IsSubstringIffOccurs(kw, Fold(h));
    assert MatchesKeyword(h, kw);
  }

  /** Every default keyword is a plain lower-case word. */
  lemma ProductKeywordsAreLowerAsciiWords()
    ensures PlainPatterns(ProductKeywords)
  {
  }

  /** The plural patterns add nothing: `product` already occurs wherever
      `products` does, and `solution` wherever `solutions` does. */
  lemma {:induction false} PluralKeywordsAreRedundant(href: string)
    ensures IsProductLink(href, ProductKeywords)
        <==> MatchesKeyword(href, "product") || MatchesKeyword(href, "solution")
  {
    if MatchesKeyword(href, "products") {
      PrefixOfSubstring("product", "products", Fold(href));
    }
    if MatchesKeyword(href, "solutions") {
      PrefixOfSubstring("solution", "solutions", Fold(href));
    }
    if MatchesKeyword(href, "product") {
      assert "product" in ProductKeywords;
    }
    if MatchesKeyword(href, "solution") {
      assert "solution" in ProductKeywords;
    }
  }
}

=== FILE: pipeline.dfy ===
/** The two `fetch_competitor_info` pipelines, up to the point where the
    descriptions are handed to the language model. */
module Pipeline {
  import opened Wrappers
  import opened Seqs
  import opened SearchResults
  import opened Descriptions
  import opened Scraper

  /** How a pipeline run ends before the language-model call:
      - `NoCompetitors`: the fixed message returned instead of an analysis;
      - `Analysis`: the scraped competitors and the description block built
        from them, which the prompt embeds;
      - `KeyMissing`: an organic result lacked a key that is read with
        `result[key]`, and the `KeyError` leaves the function. */
  datatype Report =
    | NoCompetitors(message: string)
    | Analysis(details: seq<CompetitorDetail>, descriptions: string)
    | KeyMissing(key: string)

  const NoRelevantCompetitorsMessage: string := "No relevant competitors found."
  const NoCompetitorsMessage: string := "No competitors found."

  // ---------------------------------------------------------------------
  // competitor_analysis.py: two queries, filtering, de-duplication
  // ---------------------------------------------------------------------

  /** The filtered results of the name query followed by those of the
      `"<name> competitors"` query. `domain` stands for
      `tldextract.extract(url).domain` and `search` for
      `query_serper_for_results`. */
  function MergedResults(startupUrl: string, domain: string -> string,
                         search: string -> SearchResponse): seq<Record> {
    var name := domain(startupUrl);
    FilterSearchResults(search(name), domain) + FilterSearchResults(search(name + " competitors"), domain)
  }

  /** One detail per record, in order, whose raw text is what `scrape`
      returns for the record's URL. */
  function ScrapeAll(rs: seq<Record>, scrape: string -> string): (ds: seq<CompetitorDetail>)
    ensures |ds| == |rs|
    ensures forall i :: 0 <= i < |rs| ==> ds[i] == CompetitorDetail(rs[i].name, rs[i].url, scrape(rs[i].url))
  {
    if |rs| == 0 then []
    else
      var front, last := rs[..|rs| - 1], rs[|rs| - 1];
      var ds := ScrapeAll(front, scrape) + [CompetitorDetail(last.name, last.url, scrape(last.url))];
      assert forall i :: 0 <= i < |front| ==> front[i] == rs[i];
      ds
  }

  /** The homepage-only scraper of competitor_analysis.py. */
  function HomepageScraper(web: Web): string -> string {
    u => ScrapeHomepage(web, u)
  }

  /** The thorough scraper of backend.py. */
  function SiteScraper(web: Web): string -> string {
    u => ScrapeSite(web, u)
  }

  /** `fetch_competitor_info` of competitor_analysis.py: the fixed message
      when nothing survives filtering, otherwise one homepage scrape per
      de-duplicated record and the description block built from them. */
  function FetchCompetitorInfo(startupUrl: string, domain: string -> string,
                               search: string -> SearchResponse, web: Web): (r: Report)
    ensures !r.KeyMissing?
    ensures r.NoCompetitors? <==> MergedResults(startupUrl, domain, search) == []
    ensures r.NoCompetitors? ==> r.message == NoRelevantCompetitorsMessage
    ensures r.Analysis? ==> |r.details| > 0 && r.descriptions == Describe(r.details)
  {
    ReportOnMerged(MergedResults(startupUrl, domain, search), web)
  }

  /** The part of `fetch_competitor_info` after the two queries: de-duplicate
      the merged records by URL, stop when none are left, otherwise scrape
      each homepage and describe the result. */
  function ReportOnMerged(merged: seq<Record>, web: Web): (r: Report)
    ensures !r.KeyMissing?
    ensures r.NoCompetitors? <==> merged == []
    ensures r.NoCompetitors? ==> r.message == NoRelevantCompetitorsMessage
    ensures r.Analysis? ==> |r.details| > 0 && r.descriptions == Describe(r.details)
  {
    var unique := DedupByUrl(merged);
    DedupByUrlKeys(merged);
    if |unique| == 0 then NoCompetitors(NoRelevantCompetitorsMessage)
    else
      var ds := ScrapeAll(unique, HomepageScraper(web));
      Analysis(ds, Describe(ds))
  }

  /** Every merged record passed the exclusion checks of its own query. */
  lemma MergedResultsAdmissible(startupUrl: string, domain: string -> string, search: string -> SearchResponse)
    ensures var merged := MergedResults(startupUrl, domain, search);
      forall i :: 0 <= i < |merged| ==>
        domain(merged[i].url) !in ExcludedDomains && !IsSubstring("Alternatives & Competitors", merged[i].name)
  {
    var name := domain(startupUrl);
    var a, b := FilterSearchResults(search(name), domain), FilterSearchResults(search(name + " competitors"), domain);
    var m: seq<Record> := a + b;
    assert MergedResults(startupUrl, domain, search) == m;
    forall i | 0 <= i < |m|
      ensures domain(m[i].url) !in ExcludedDomains && !IsSubstring("Alternatives & Competitors", m[i].name)
    {
      if i < |a| {
        assert m[i] == a[i];
      } else {
        assert m[i] == b[i - |a|];
      }
    }
  }

  /** Scraping the de-duplicated records visits each URL of `merged` once,
      under a record of `merged`, and keeps what `scrape` returns for it. */
  lemma {:induction false} ScrapeDedupVisitsEachUrlOnce(merged: seq<Record>, scrape: string -> string)
    ensures var ds := ScrapeAll(DedupByUrl(merged), scrape);
      && (forall i, j :: 0 <= i < j < |ds| ==> ds[i].url != ds[j].url)
      && (forall u :: u in Urls(merged) <==> exists i :: 0 <= i < |ds| && ds[i].url == u)
      && (forall i :: 0 <= i < |ds| ==>
            && Record(ds[i].name, ds[i].url) in merged
            && ds[i].rawText == scrape(ds[i].url))
  {
    var unique := DedupByUrl(merged);
    var ds := ScrapeAll(unique, scrape);
    DedupByUrlKeys(merged);
    DedupRecordsAreInputRecords(merged);
    var us := Urls(unique);
    forall i | 0 <= i < |ds|
      ensures ds[i].url == us[i] && Record(ds[i].name, ds[i].url) == unique[i]
    {}
    forall i, j | 0 <= i < j < |ds|
      ensures ds[i].url != ds[j].url
    {
      assert ds[i].url == us[i] && ds[j].url == us[j];
      assert us[i] != us[j];
    }
    forall u
      ensures u in Urls(merged) <==> exists i :: 0 <= i < |ds| && ds[i].url == u
    {
      if u in us {
        var i :| 0 <= i < |us| && us[i] == u;
        assert ds[i].url == u;
      }
    }
  }

  /** When the pipeline reaches the analysis, it has scraped each competitor
      URL of the merged results exactly once, each under a record that
      passed the exclusion checks, and the raw text of each is its homepage
      scrape. */
  lemma {:induction false} FetchCompetitorInfoScrapesEachUrlOnce(startupUrl: string, domain: string -> string,
                                                              search: string -> SearchResponse, web: Web)
    ensures var r := FetchCompetitorInfo(startupUrl, domain, search, web);
      r.Analysis? ==>
        var merged, ds := MergedResults(startupUrl, domain, search), r.details;
        && (forall i, j :: 0 <= i < j < |ds| ==> ds[i].url != ds[j].url)
        && (forall u :: u in Urls(merged) <==> exists i :: 0 <= i < |ds| && ds[i].url == u)
        && (forall i :: 0 <= i < |ds| ==>
              && domain(ds[i].url) !in ExcludedDomains
              && !IsSubstring("Alternatives & Competitors", ds[i].name)
              && ds[i].rawText == ScrapeHomepage(web, ds[i].url))
  {
    var merged := MergedResults(startupUrl, domain, search);
    var r := FetchCompetitorInfo(startupUrl, domain, search, web);
    assert r == ReportOnMerged(merged, web);
    ReportOnMergedScrapesEachUrlOnce(merged, web);
    MergedResultsAdmissible(startupUrl, domain, search);
    if r.Analysis? {
      var ds := r.details;
      forall i | 0 <= i < |ds|
        ensures domain(ds[i].url) !in ExcludedDomains && !IsSubstring("Alternatives & Competitors", ds[i].name)
      {
        var k :| 0 <= k < |merged| && merged[k] == Record(ds[i].name, ds[i].url);
      }
    }
  }

  /** The same for any merged list: each URL once, under a record of the
      list, with its homepage scrape; one detail per de-duplicated record,
      in the order of the de-duplicated list. */
  lemma {:induction false} ReportOnMergedScrapesEachUrlOnce(merged: seq<Record>, web: Web)
    ensures var r := ReportOnMerged(merged, web);
      r.Analysis? ==>
        var ds := r.details;
        && (forall i, j :: 0 <= i < j < |ds| ==> ds[i].url != ds[j].url)
        && (forall u :: u in Urls(merged) <==> exists i :: 0 <= i < |ds| && ds[i].url == u)
        && (forall i :: 0 <= i < |ds| ==>
              && Record(ds[i].name, ds[i].url) in merged
              && ds[i].rawText == ScrapeHomepage(web, ds[i].url))
        && |ds| == |DedupByUrl(merged)|
        && (forall i :: 0 <= i < |ds| ==> Record(ds[i].name, ds[i].url) == DedupByUrl(merged)[i])
  {
    var r := ReportOnMerged(merged, web);
    if r.Analysis? {
      ScrapeDedupVisitsEachUrlOnce(merged, HomepageScraper(web));
      var ds := r.details;
      assert ds == ScrapeAll(DedupByUrl(merged), HomepageScraper(web));
      forall i | 0 <= i < |ds|
        ensures ds[i].rawText == ScrapeHomepage(web, ds[i].url)
      {
        assert ds[i].rawText == HomepageScraper(web)(ds[i].url);
      }
    }
  }

  /** The end-to-end empty case: when neither query yields an organic
      result, the pipeline stops with the fixed message and scrapes nothing. */
  lemma {:induction false} NoResultsMeansNoRelevantCompetitors(startupUrl: string, domain: string -> string,
                                                              search: string -> SearchResponse, web: Web)
    requires Organic(search(domain(startupUrl))) == []
    requires Organic(search(domain(startupUrl) + " competitors")) == []
    ensures FetchCompetitorInfo(startupUrl, domain, search, web) == NoCompetitors(NoRelevantCompetitorsMessage)
  {
    var name := domain(startupUrl);
    assert Organic(search(name)) == [];
    assert Organic(search(name + " competitors")) == [];
  }

  /** A URL returned by the `"<name> competitors"` query is scraped and
      described, and only under a record of that query, whatever the name
      query returned for it. */
  lemma {:induction false} CompetitorsQueryRecordWins(startupUrl: string, domain: string -> string,
                                                         search: string -> SearchResponse, web: Web, u: string)
    requires u in Urls(FilterSearchResults(search(domain(startupUrl) + " competitors"), domain))
    ensures var r := FetchCompetitorInfo(startupUrl, domain, search, web);
      var later := FilterSearchResults(search(domain(startupUrl) + " competitors"), domain);
      && r.Analysis?
      && (exists i :: 0 <= i < |r.details| && r.details[i].url == u)
      && (forall i :: 0 <= i < |r.details| && r.details[i].url == u ==>
            Record(r.details[i].name, u) in later)
  {
    var name := domain(startupUrl);
    var a, b := FilterSearchResults(search(name), domain), FilterSearchResults(search(name + " competitors"), domain);
    LaterRecordWins(a, b, u, web);
    assert MergedResults(startupUrl, domain, search) == a + b;
  }

  /** The same for any merged list `a + b` and a URL of `b`. */
  lemma LaterRecordWins(a: seq<Record>, b: seq<Record>, u: string, web: Web)
    requires u in Urls(b)
    ensures var r := ReportOnMerged(a + b, web);
      && r.Analysis?
      && (exists i :: 0 <= i < |r.details| && r.details[i].url == u)
      && (forall i :: 0 <= i < |r.details| && r.details[i].url == u ==> Record(r.details[i].name, u) in b)
  {
    var m: seq<Record> := a + b;
    DedupPrefersLaterRecord(a, b, u);
    var unique := DedupByUrl(m);
    var ds := ScrapeAll(unique, HomepageScraper(web));
    assert |unique| > 0;
    assert ReportOnMerged(m, web) == Analysis(ds, Describe(ds));
    var i0 :| 0 <= i0 < |unique| && unique[i0].url == u;
    assert ds[i0].url == u;
    forall i | 0 <= i < |ds| && ds[i].url == u
      ensures Record(ds[i].name, u) in b
    {
      assert Record(ds[i].name, ds[i].url) == unique[i];
    }
  }

  // ---------------------------------------------------------------------
  // backend.py: one query, no filtering, thorough scrape
  // ---------------------------------------------------------------------

  /** The key whose absence raises `KeyError` while reading `results` in
      order: `"title"` is read before `"link"`. */
  function FirstMissingKey(results: seq<OrganicResult>): (k: Option<string>)
    ensures k.None? <==> forall i :: 0 <= i < |results| ==> results[i].title.Some? && results[i].link.Some?
    ensures k.Some? ==>
              exists i :: 0 <= i < |results| &&
                (forall j :: 0 <= j < i ==> results[j].title.Some? && results[j].link.Some?) &&
                (if results[i].title.None? then k.value == "title" else results[i].link.None? && k.value == "link")
  {
    if |results| == 0 then None
    else if results[0].title.None? then Some("title")
    else if results[0].link.None? then Some("link")
    else
      var k := FirstMissingKey(results[1..]);
      assert forall i :: 1 <= i < |results| ==> results[i] == results[1..][i - 1];
      k
  }

  /** `fetch_competitor_info` of backend.py. `search` stands for the search
      request of `query_serper_for_competitors`. */
  function BackendFetchCompetitorInfo(startupUrl: string, domain: string -> string,
                                      search: string -> SearchResponse, web: Web): (r: Report)
    ensures var organic := Organic(search(domain(startupUrl) + " competitors"));
      && (r.NoCompetitors? <==> organic == [])
      && (r.NoCompetitors? ==> r.message == NoCompetitorsMessage)
      && (r.KeyMissing? <==> organic != [] && FirstMissingKey(organic).Some?)
      && (r.KeyMissing? ==> r.key == FirstMissingKey(organic).value)
      && (r.Analysis? ==>
            && |r.details| == |organic|
            && r.descriptions == Describe(r.details)
            && forall i :: 0 <= i < |organic| ==>
                 && organic[i].title == Some(r.details[i].name)
                 && organic[i].link == Some(r.details[i].url)
                 && r.details[i].rawText == ScrapeSite(web, r.details[i].url))
  {
    var organic := Organic(search(domain(startupUrl) + " competitors"));
    if organic == [] then NoCompetitors(NoCompetitorsMessage)
    else
      match FirstMissingKey(organic)
      case Some(key) => KeyMissing(key)
      case None =>
        var ds := ScrapeAll(Map(organic, ToRecord), SiteScraper(web));
        Analysis(ds, Describe(ds))
  }

  /** The backend pipeline neither filters nor de-duplicates: a result from
      a denylisted site, or a URL returned twice, is scraped and described
      like any other. */
  lemma {:induction false} BackendKeepsEveryResult(startupUrl: string, domain: string -> string,
                                                   search: string -> SearchResponse, web: Web, i: nat)
    requires var organic := Organic(search(domain(startupUrl) + " competitors"));
      i < |organic| && FirstMissingKey(organic).None?
    ensures var organic := Organic(search(domain(startupUrl) + " competitors"));
      var r := BackendFetchCompetitorInfo(startupUrl, domain, search, web);
      && r.Analysis?
      && i < |r.details|
      && r.details[i].url == organic[i].link.value
      && IsPrefix(ScrapeHomepage(web, organic[i].link.value), r.details[i].rawText)
  {
    var organic := Organic(search(domain(startupUrl) + " competitors"));
    var r := BackendFetchCompetitorInfo(startupUrl, domain, search, web);
    var u := organic[i].link.value;
    assert r.details[i].rawText == ScrapeSite(web, u);
    ScrapeSiteExtendsHomepage(web, u);
    PrefixOfExtension(ScrapeHomepage(web, u), ProductHeading, ScrapeSite(web, u));
  }
}

=== FILE: product_links.dfy ===
/** `find_product_links` (backend.py): the product-related subpages the
    thorough scraper visits. */
module ProductLinks {
  import opened Seqs
  import opened Keywords

  /** At most this many product pages are visited. */
  const MaxProductLinks: nat := 3

  /** `u` is the join of the base URL with some href that matches a keyword. */
  ghost predicate JoinsProductHref(u: string, base: string, hrefs: seq<string>, keywords: seq<string>,
                                   join: (string, string) -> string) {
    exists h :: h in hrefs && IsProductLink(h, keywords) && u == join(base, h)
  }

  /** Whether an href is selected, as a value. */
  function ProductHrefFor(keywords: seq<string>): string -> bool {
    h => IsProductLink(h, keywords)
  }

  /** `urljoin(base, ·)`, as a value. */
  function JoinTo(base: string, join: (string, string) -> string): string -> string {
    h => join(base, h)
  }

  /** Every href that matches a keyword, joined against the base URL, in
      anchor order, repeats included. `join` stands for `urljoin`. */
  function MatchingUrls(base: string, hrefs: seq<string>, keywords: seq<string>,
                        join: (string, string) -> string): seq<string>
    requires PlainPatterns(keywords)
  {
    Map(Filter(hrefs, ProductHrefFor(keywords)), JoinTo(base, join))
  }

  /** The matching URLs are exactly the joins of the matching hrefs: each
      comes from a matching href, and each matching href contributes. */
  lemma MatchingUrlsAreProductJoins(base: string, hrefs: seq<string>, keywords: seq<string>,
                                    join: (string, string) -> string)
    requires PlainPatterns(keywords)
    ensures var us := MatchingUrls(base, hrefs, keywords, join);
      && |us| <= |hrefs|
      && (forall k :: 0 <= k < |us| ==> JoinsProductHref(us[k], base, hrefs, keywords, join))
      && (forall i :: 0 <= i < |hrefs| && IsProductLink(hrefs[i], keywords) ==> join(base, hrefs[i]) in us)
  {
    var kept := Filter(hrefs, ProductHrefFor(keywords));
    var us := MatchingUrls(base, hrefs, keywords, join);
    forall k | 0 <= k < |us|
      ensures JoinsProductHref(us[k], base, hrefs, keywords, join)
    {
      assert us[k] == join(base, kept[k]);
      assert kept[k] in hrefs && IsProductLink(kept[k], keywords);
    }
    forall i | 0 <= i < |hrefs| && IsProductLink(hrefs[i], keywords)
      ensures join(base, hrefs[i]) in us
    {
      assert ProductHrefFor(keywords)(hrefs[i]);
      var k :| 0 <= k < |kept| && kept[k] == hrefs[i];
      assert us[k] == join(base, hrefs[i]);
    }
  }

  /** Scanning one more anchor appends its joined URL exactly when it matches. */
  lemma MatchingUrlsAppend(base: string, hrefs: seq<string>, h: string, keywords: seq<string>,
                           join: (string, string) -> string)
    requires PlainPatterns(keywords)
    ensures MatchingUrls(base, hrefs + [h], keywords, join) ==
            if IsProductLink(h, keywords) then MatchingUrls(base, hrefs, keywords, join) + [join(base, h)]
            else MatchingUrls(base, hrefs, keywords, join)
  {
    var p, f := ProductHrefFor(keywords), JoinTo(base, join);
    var kept := Filter(hrefs, p);
    assert (hrefs + [h])[..|hrefs|] == hrefs;
    if IsProductLink(h, keywords) {
      assert Filter(hrefs + [h], p) == kept + [h];
      assert (kept + [h])[..|kept|] == kept;
    } else {
      assert Filter(hrefs + [h], p) == kept;
    }
  }

  /** One more step of the scan: the URLs of the first `i + 1` anchors. */
  lemma MatchingUrlsStep(base: string, hrefs: seq<string>, i: nat, keywords: seq<string>,
                         join: (string, string) -> string)
    requires PlainPatterns(keywords) && i < |hrefs|
    ensures MatchingUrls(base, hrefs[..i + 1], keywords, join) ==
            if IsProductLink(hrefs[i], keywords) then MatchingUrls(base, hrefs[..i], keywords, join) + [join(base, hrefs[i])]
            else MatchingUrls(base, hrefs[..i], keywords, join)
  {
    assert hrefs[..i + 1] == hrefs[..i] + [hrefs[i]];
    MatchingUrlsAppend(base, hrefs[..i], hrefs[i], keywords, join);
  }

  /** The selection `find_product_links` returns: the distinct matching URLs
      in order of first appearance, cut to the first three. */
  function FirstProductLinks(base: string, hrefs: seq<string>, keywords: seq<string>,
                             join: (string, string) -> string): (links: seq<string>)
    requires PlainPatterns(keywords)
    ensures |links| <= MaxProductLinks
    ensures Distinct(links)
    ensures forall k :: 0 <= k < |links| ==> JoinsProductHref(links[k], base, hrefs, keywords, join)
    ensures forall i :: 0 <= i < |hrefs| && IsProductLink(hrefs[i], keywords) && join(base, hrefs[i]) !in links ==>
              |links| == MaxProductLinks
  {
    MatchingUrlsAreProductJoins(base, hrefs, keywords, join);
    var all := Unique(MatchingUrls(base, hrefs, keywords, join));
    var links := Take(all, MaxProductLinks);
    assert forall k :: 0 <= k < |links| ==> links[k] == all[k];
    links
  }

  /** Order of selection: the links are the first ones of the repeat-free
      list of matches, and a link after a selected one is selected only if
      it comes later in the anchors too. */
  lemma {:induction false} FirstProductLinksFollowAnchorOrder(base: string, hrefs: seq<string>, keywords: seq<string>,
                                                                 join: (string, string) -> string)
    requires PlainPatterns(keywords)
    ensures var all := MatchingUrls(base, hrefs, keywords, join);
      var links := FirstProductLinks(base, hrefs, keywords, join);
      && IsPrefix(links, Unique(all))
      && |links| == (if |Unique(all)| < MaxProductLinks then |Unique(all)| else MaxProductLinks)
      && forall i, j :: 0 <= i < j < |links| ==> FirstIndex(all, links[i]) < FirstIndex(all, links[j])
  {
    var all := MatchingUrls(base, hrefs, keywords, join);
    assert FirstProductLinks(base, hrefs, keywords, join) == Take(Unique(all), MaxProductLinks);
    FirstOfUniqueFollowOccurrences(all, MaxProductLinks);
  }

  /** The first `n` of the repeat-free list of `all`: a prefix of it, as
      long as it allows, ordered by first occurrence in `all`. */
  lemma FirstOfUniqueFollowOccurrences(all: seq<string>, n: nat)
    ensures var links := Take(Unique(all), n);
      && IsPrefix(links, Unique(all))
      && |links| == (if |Unique(all)| < n then |Unique(all)| else n)
      && forall i, j :: 0 <= i < j < |links| ==> FirstIndex(all, links[i]) < FirstIndex(all, links[j])
  {
    UniqueFollowsFirstOccurrences(all);
    var links := Take(Unique(all), n);
    assert forall k :: 0 <= k < |links| ==> links[k] == Unique(all)[k];
  }

  /** `find_product_links`: the scan below, cut to the first three. */
  method FindProductLinks(base: string, hrefs: seq<string>, keywords: seq<string>,
                          join: (string, string) -> string) returns (links: seq<string>)
    requires PlainPatterns(keywords)
    ensures links == FirstProductLinks(base, hrefs, keywords, join)
  {
    var productLinks := ScanAnchors(base, hrefs, keywords, join);
    links := Take(productLinks, MaxProductLinks);
  }

  /** The scan of `find_product_links` as a recursion over the anchors:
      the URL of the last anchor is appended when it matches and is new. */
  function ScanUrls(base: string, hrefs: seq<string>, keywords: seq<string>,
                    join: (string, string) -> string): seq<string>
  {
    if |hrefs| == 0 then []
    else
      var front, href := ScanUrls(base, hrefs[..|hrefs| - 1], keywords, join), hrefs[|hrefs| - 1];
      if IsProductLink(href, keywords) && join(base, href) !in front then front + [join(base, href)] else front
  }

  /** The scan yields the repeat-free list of the matching URLs. */
  lemma {:induction false} ScanUrlsAreUniqueMatches(base: string, hrefs: seq<string>, keywords: seq<string>,
                                                     join: (string, string) -> string)
    requires PlainPatterns(keywords)
    ensures ScanUrls(base, hrefs, keywords, join) == Unique(MatchingUrls(base, hrefs, keywords, join))
  {
    if |hrefs| > 0 {
      var i := |hrefs| - 1;
      assert hrefs[..i + 1] == hrefs;
      ScanUrlsAreUniqueMatches(base, hrefs[..i], keywords, join);
      MatchingUrlsStep(base, hrefs, i, keywords, join);
      if IsProductLink(hrefs[i], keywords) {
        UniqueAppend(MatchingUrls(base, hrefs[..i], keywords, join), join(base, hrefs[i]));
      }
    }
  }

  /** The loop of `find_product_links`: scan the anchors, and for each href
      matching a keyword append its joined URL unless already present. */
  method ScanAnchors(base: string, hrefs: seq<string>, keywords: seq<string>,
                     join: (string, string) -> string) returns (productLinks: seq<string>)
    requires PlainPatterns(keywords)
    ensures productLinks == Unique(MatchingUrls(base, hrefs, keywords, join))
  {
    productLinks := [];
    var i := 0;
    while i < |hrefs|
      invariant 0 <= i <= |hrefs|
      invariant productLinks == ScanUrls(base, hrefs[..i], keywords, join)
    {
      var href := hrefs[i];
      assert hrefs[..i + 1][..i] == hrefs[..i];
      if IsProductLink(href, keywords) {
        var fullUrl := join(base, href);
        if fullUrl !in productLinks {
          productLinks := productLinks + [fullUrl];
        }
      }
      i := i + 1;
    }
    assert hrefs[..i] == hrefs;
    ScanUrlsAreUniqueMatches(base, hrefs, keywords, join);
  }
}

=== FILE: scraper.dfy ===
/** The two competitor-site scrapers: the homepage-only one of
    competitor_analysis.py and the homepage-plus-product-pages one of
    backend.py. Page fetching and HTML parsing are not modelled; they enter
    as the functions of a `Web`. */
module Scraper {
  import opened Wrappers
  import opened Seqs
  import opened Keywords
  import opened ProductLinks

  /** What the scrapers can observe of the web.
      - `pageText(url)`: `scrape_page_text(url)`, the paragraph text of the
        page, already `""` when the fetch or parse fails;
      - `anchors(url)`: the `href` of every `<a href>` of the page, in
        document order, or `None` when the fetch or parse raises;
      - `join(base, href)`: `urljoin(base, href)`. */
  datatype Web = Web(
    pageText: string -> string,
    anchors: string -> Option<seq<string>>,
    join: (string, string) -> string)

  const HomepageHeading: string := "Homepage:\n"
  const ProductHeading: string := "\n\nProduct Pages:\n"

  /** `scrape_competitor_website` of competitor_analysis.py: the homepage
      section alone. */
  function ScrapeHomepage(web: Web, url: string): string {
    HomepageHeading + web.pageText(url)
  }

  /** The homepage-only scrape is the `Homepage:` heading followed by exactly
      the page text, whatever that text is (empty when the fetch failed). */
  lemma HomepageScrapeFormat(web: Web, url: string)
    ensures var r := ScrapeHomepage(web, url);
      IsPrefix(HomepageHeading, r) && r[|HomepageHeading|..] == web.pageText(url)
  {
    var r := ScrapeHomepage(web, url);
    assert r[..|HomepageHeading|] == HomepageHeading;
  }

  /** The section written for one product page. */
  function ProductSection(web: Web): string -> string {
    link => "\n" + web.pageText(link)
  }

  /** The product text: the sections of the given links, in order. */
  function ProductTexts(web: Web, links: seq<string>): string {
    Flatten(Map(links, ProductSection(web)))
  }

  /** The product pages the thorough scraper visits, none when fetching or
      parsing the page for its anchors fails. */
  function SelectedLinks(web: Web, url: string): (links: seq<string>)
    ensures |links| <= MaxProductLinks
    ensures Distinct(links)
    ensures web.anchors(url).None? ==> links == []
    ensures web.anchors(url).Some? ==>
              forall k :: 0 <= k < |links| ==>
                JoinsProductHref(links[k], url, web.anchors(url).value, ProductKeywords, web.join)
  {
    match web.anchors(url)
    case None => []
    case Some(hrefs) =>
      ProductKeywordsAreLowerAsciiWords();
      FirstProductLinks(url, hrefs, ProductKeywords, web.join)
  }

  /** `scrape_competitor_website` of backend.py: the homepage section, the
      product heading, then one section per selected product page. */
  function ScrapeSite(web: Web, url: string): string {
    HomepageHeading + web.pageText(url) + ProductHeading + ProductTexts(web, SelectedLinks(web, url))
  }

  /** The thorough scrape extends the homepage-only scrape: it starts with
      the same homepage section, then the product heading, then the product
      text of the selected links. A failed anchor fetch only empties the
      product part; the homepage section is returned all the same. */
  lemma ScrapeSiteExtendsHomepage(web: Web, url: string)
    ensures var r, head := ScrapeSite(web, url), ScrapeHomepage(web, url) + ProductHeading;
      && IsPrefix(head, r)
      && r[|head|..] == ProductTexts(web, SelectedLinks(web, url))
      && (web.anchors(url).None? ==> r == head)
  {
    var r := ScrapeSite(web, url);
    var head := ScrapeHomepage(web, url) + ProductHeading;
    assert r == head + ProductTexts(web, SelectedLinks(web, url));
  }

  /** The product loop: `product_texts += "\n" + scrape_page_text(link)` for
      each selected link in turn, starting from the empty string. */
  method CollectProductTexts(web: Web, links: seq<string>) returns (texts: string)
    ensures texts == ProductTexts(web, links)
  {
    texts := "";
    var i := 0;
    while i < |links|
      invariant 0 <= i <= |links|
      invariant texts == ProductTexts(web, links[..i])
    {
      assert Map(links[..i + 1], ProductSection(web)) == Map(links[..i], ProductSection(web)) + ["\n" + web.pageText(links[i])];
      texts := texts + "\n" + web.pageText(links[i]);
      i := i + 1;
    }
    assert links[..i] == links;
  }

  /** The product part holds one newline-led section per selected link, in
      link order: section `k` is the page text of link `k`. */
  lemma {:induction false} ProductSectionInOrder(web: Web, links: seq<string>, k: nat)
    requires k < |links|
    ensures var start := |ProductTexts(web, links[..k])|;
      var section := "\n" + web.pageText(links[k]);
      start + |section| <= |ProductTexts(web, links)| &&
      ProductTexts(web, links)[start..start + |section|] == section
  {
    var pieces := Map(links, ProductSection(web));
    PieceInFlatten(pieces, k);
    assert pieces[..k] == Map(links[..k], ProductSection(web));
  }

  /** The product part is exactly as long as its sections: one newline per
      selected link plus the page texts. */
  lemma {:induction false} ProductTextsLength(web: Web, links: seq<string>)
    ensures |ProductTexts(web, links)| == |links| + TextLength(web, links)
  {
    if |links| > 0 {
      var front := links[..|links| - 1];
      ProductTextsLength(web, front);
      assert Map(links, ProductSection(web)) == Map(front, ProductSection(web)) + ["\n" + web.pageText(links[|links| - 1])];
      assert Map(links, ProductSection(web))[..|links| - 1] == Map(front, ProductSection(web));
    }
  }

  /** The total length of the page texts of `links`. */
  function TextLength(web: Web, links: seq<string>): nat {
    if |links| == 0 then 0 else TextLength(web, links[..|links| - 1]) + |web.pageText(links[|links| - 1])|
  }
}

=== FILE: search_results.dfy ===
/** Search-result filtering and URL de-duplication of the two-query
    competitor pipeline (competitor_analysis.py). */
module SearchResults {
  import opened Wrappers
  import opened Seqs

  /** One entry of the `organic` array of a search response; a key the JSON
      object lacks is `None`. */
  datatype OrganicResult = OrganicResult(title: Option<string>, link: Option<string>)

  /** A search response; a failed query yields a response without `organic`. */
  datatype SearchResponse = SearchResponse(organic: Option<seq<OrganicResult>>)

  /** A `{"name": ..., "url": ...}` record of a candidate competitor. */
  datatype Record = Record(name: string, url: string)

  /** Data-provider sites whose results are dropped (`EXCLUDED_DOMAINS`). */
  const ExcludedDomains: seq<string> :=
    ["zoominfo.com", "owler.com", "trustpilot.com", "g2.com", "trustradius.com",
     "cbinsights.com", "craft.co", "tracxn.com"]

  /** Boilerplate title fragments whose results are dropped (`EXCLUDED_TITLES`). */
  const ExcludedTitles: seq<string> := ["Alternatives & Competitors"]

  /** `search_results.get("organic", [])`. */
  function Organic(resp: SearchResponse): seq<OrganicResult> {
    resp.organic.GetOr([])
  }

  /** `{"name": result.get("title", ""), "url": result.get("link", "")}`. */
  function ToRecord(o: OrganicResult): Record {
    Record(o.title.GetOr(""), o.link.GetOr(""))
  }

  /** A record survives when the domain extracted from its URL is not an
      entry of the denylist (exact list membership) and no boilerplate
      fragment occurs in its title. */
  predicate Admissible(r: Record, domain: string -> string) {
    && domain(r.url) !in ExcludedDomains
    && !(exists t :: t in ExcludedTitles && IsSubstring(t, r.name))
  }

  /** `Admissible` as a value, so that every use filters by the same function. */
  function AdmissibleFor(domain: string -> string): Record -> bool {
    r => Admissible(r, domain)
  }

  /** `filter_search_results`: the admissible records of the organic results,
      in response order. `domain` stands for `tldextract.extract(url).domain`. */
  function FilterSearchResults(resp: SearchResponse, domain: string -> string): (rs: seq<Record>)
    ensures |rs| <= |Organic(resp)|
    ensures resp.organic.None? ==> rs == []
    ensures forall k :: 0 <= k < |rs| ==> domain(rs[k].url) !in ExcludedDomains
    ensures forall k :: 0 <= k < |rs| ==> !IsSubstring("Alternatives & Competitors", rs[k].name)
  {
    var rs := Filter(Map(Organic(resp), ToRecord), AdmissibleFor(domain));
    assert "Alternatives & Competitors" in ExcludedTitles;
    rs
  }

  /** The filter is order-preserving: the `k`-th surviving record is the
      record of the `k`-th organic result that passes the exclusion checks,
      and a result is passed over only when it fails them. */
  lemma FilterSearchResultsKeepsOrder(resp: SearchResponse, domain: string -> string)
    ensures var o, rs := Organic(resp), FilterSearchResults(resp, domain);
      var ix := KeptIndices(Map(o, ToRecord), AdmissibleFor(domain));
      && |ix| == |rs|
      && (forall k :: 0 <= k < |ix| ==> ix[k] < |o| && rs[k] == ToRecord(o[ix[k]]))
      && (forall k, l :: 0 <= k < l < |ix| ==> ix[k] < ix[l])
      && (forall i :: 0 <= i < |o| ==> (i in ix <==> Admissible(ToRecord(o[i]), domain)))
  {
    FilterKeepsOrder(Map(Organic(resp), ToRecord), AdmissibleFor(domain));
  }

  /** Only a domain spelled exactly like a denylist entry, suffix included,
      is excluded; a suffix-free domain such as `g2` is never excluded. */
  lemma {:induction false} SuffixFreeDomainIsNotExcluded(o: OrganicResult, domain: string -> string)
    requires '.' !in domain(o.link.GetOr(""))
    requires !IsSubstring("Alternatives & Competitors", o.title.GetOr(""))
    ensures FilterSearchResults(SearchResponse(Some([o])), domain) == [ToRecord(o)]
  {
    var d := domain(o.link.GetOr(""));
    forall e | e in ExcludedDomains
      ensures '.' in e
    {
    }
    assert d !in ExcludedDomains;
    assert Admissible(ToRecord(o), domain);
  }

  // ---------------------------------------------------------------------
  // De-duplication by URL: `{result["url"]: result for result in rs}.values()`
  // ---------------------------------------------------------------------

  /** The URL of a record. */
  function UrlOf(r: Record): string {
    r.url
  }

  /** The URL of every record, in order. */
  function Urls(rs: seq<Record>): seq<string> {
    Map(rs, UrlOf)
  }

  /** `d[r["url"]] = r` on an insertion-ordered dictionary held as its list of
      values: an existing key keeps its position and takes the new value; a
      new key goes at the end. */
  function Assign(d: seq<Record>, r: Record): seq<Record> {
    if r.url in Urls(d) then d[FirstIndex(Urls(d), r.url) := r] else d + [r]
  }

  /** The values of the dictionary built by assigning every record of `rs`,
      left to right, under its URL. */
  function DedupByUrl(rs: seq<Record>): seq<Record> {
    if |rs| == 0 then [] else Assign(DedupByUrl(rs[..|rs| - 1]), rs[|rs| - 1])
  }

  /** The position of the last record of `rs` with URL `u`. */
  function LastIndexWithUrl(rs: seq<Record>, u: string): (i: nat)
    requires u in Urls(rs)
    ensures i < |rs| && rs[i].url == u
    ensures forall j :: i < j < |rs| ==> rs[j].url != u
  {
    var last := rs[|rs| - 1];
    if last.url == u then |rs| - 1
    else
      assert Urls(rs) == Urls(rs[..|rs| - 1]) + [last.url];
      LastIndexWithUrl(rs[..|rs| - 1], u)
  }

  /** Assigning under a URL adds that URL at the end when it is new and
      leaves the key list alone otherwise. */
  lemma AssignUrls(d: seq<Record>, r: Record)
    ensures Urls(Assign(d, r)) == if r.url in Urls(d) then Urls(d) else Urls(d) + [r.url]
  {
    var d' := Assign(d, r);
    if r.url in Urls(d) {
      var p := FirstIndex(Urls(d), r.url);
      assert forall i :: 0 <= i < |d'| ==> Urls(d')[i] == Urls(d)[i];
    } else {
      assert forall i :: 0 <= i < |d'| ==> Urls(d')[i] == (Urls(d) + [r.url])[i];
    }
  }

  /** The keys of the de-duplicating dictionary are the distinct URLs of
      `rs` in order of first occurrence. */
  lemma {:induction false} DedupUrlsAreUnique(rs: seq<Record>)
    ensures Urls(DedupByUrl(rs)) == Unique(Urls(rs))
  {
    if |rs| > 0 {
      var front, r := rs[..|rs| - 1], rs[|rs| - 1];
      DedupUrlsAreUnique(front);
      AssignUrls(DedupByUrl(front), r);
      assert Urls(rs) == Urls(front) + [r.url];
      assert Urls(rs)[..|rs| - 1] == Urls(front);
      assert r.url in Unique(Urls(front)) <==> r.url in Urls(front) by {
        if r.url in Urls(front) {
          var k :| 0 <= k < |Urls(front)| && Urls(front)[k] == r.url;
        }
      }
    }
  }

  /** Every entry of `d` is the last record of `rs` with its URL. */
  ghost predicate HoldsLastRecords(rs: seq<Record>, d: seq<Record>) {
    forall i :: 0 <= i < |d| ==> d[i].url in Urls(rs) && d[i] == rs[LastIndexWithUrl(rs, d[i].url)]
  }

  /** Appending a record moves the last occurrence of its own URL only. */
  lemma LastIndexAfterAppend(rs: seq<Record>, r: Record, u: string)
    requires u in Urls(rs)
    ensures u in Urls(rs + [r])
    ensures LastIndexWithUrl(rs + [r], u) == if u == r.url then |rs| else LastIndexWithUrl(rs, u)
  {
    assert Urls(rs + [r]) == Urls(rs) + [r.url];
    assert (rs + [r])[..|rs|] == rs;
  }

  /** One dictionary assignment keeps every value the last one given. */
  lemma AssignKeepsLastRecords(rs: seq<Record>, d: seq<Record>, r: Record)
    requires Distinct(Urls(d)) && HoldsLastRecords(rs, d)
    ensures HoldsLastRecords(rs + [r], Assign(d, r))
  {
    var rs', d' := rs + [r], Assign(d, r);
    assert Urls(rs') == Urls(rs) + [r.url];
    assert rs'[|rs|] == r;
    forall i | 0 <= i < |d'|
      ensures d'[i].url in Urls(rs') && d'[i] == rs'[LastIndexWithUrl(rs', d'[i].url)]
    {
      if i < |d| && d[i].url != r.url {
        assert d'[i] == d[i] by {
          if r.url in Urls(d) {
            var p := FirstIndex(Urls(d), r.url);
            assert i != p;
          }
        }
        LastIndexAfterAppend(rs, r, d[i].url);
        assert rs'[LastIndexWithUrl(rs, d[i].url)] == rs[LastIndexWithUrl(rs, d[i].url)];
      } else {
        assert d'[i] == r by {
          if r.url in Urls(d) {
            var p := FirstIndex(Urls(d), r.url);
            assert Urls(d)[i] == Urls(d)[p];
          }
        }
      }
    }
  }

  /** Each entry of the de-duplicated list is the LAST record of `rs` that
      carries its URL: a later duplicate overwrites the value in place. */
  lemma {:induction false} DedupKeepsLastRecord(rs: seq<Record>)
    ensures HoldsLastRecords(rs, DedupByUrl(rs))
  {
    if |rs| > 0 {
      var front, r := rs[..|rs| - 1], rs[|rs| - 1];
      assert rs == front + [r];
      DedupKeepsLastRecord(front);
      DedupUrlsAreUnique(front);
      AssignKeepsLastRecords(front, DedupByUrl(front), r);
    }
  }

  /** Every value of the de-duplicating dictionary is a record of the input. */
  lemma DedupRecordsAreInputRecords(rs: seq<Record>)
    ensures forall i :: 0 <= i < |DedupByUrl(rs)| ==> DedupByUrl(rs)[i] in rs
  {
    var d := DedupByUrl(rs);
    DedupKeepsLastRecord(rs);
    forall i | 0 <= i < |d|
      ensures d[i] in rs
    {
      var j := LastIndexWithUrl(rs, d[i].url);
      assert d[i] == rs[j];
    }
  }

  /** No URL twice, exactly the URLs of the input, and empty exactly when
      the input is empty. */
  lemma DedupByUrlKeys(rs: seq<Record>)
    ensures var d := DedupByUrl(rs);
      && Distinct(Urls(d))
      && (forall u :: u in Urls(d) <==> u in Urls(rs))
      && (|d| == 0 <==> |rs| == 0)
  {
    DedupUrlsAreUnique(rs);
    var us := Unique(Urls(rs));
    forall u | u in Urls(rs)
      ensures u in us
    {
      var k :| 0 <= k < |Urls(rs)| && Urls(rs)[k] == u;
    }
    if |rs| > 0 {
      assert Urls(rs)[0] in Urls(rs);
    }
  }

  /** Records appear in the order in which their URLs first occur in the input. */
  lemma DedupByUrlFirstOccurrenceOrder(rs: seq<Record>)
    ensures var d := DedupByUrl(rs);
      forall i, j :: 0 <= i < j < |d| ==>
        d[i].url in Urls(rs) && d[j].url in Urls(rs) &&
        FirstIndex(Urls(rs), d[i].url) < FirstIndex(Urls(rs), d[j].url)
  {
    DedupUrlsAreUnique(rs);
    UniqueFollowsFirstOccurrences(Urls(rs));
    var d, us := DedupByUrl(rs), Unique(Urls(rs));
    forall i, j | 0 <= i < j < |d|
      ensures d[i].url in Urls(rs) && d[j].url in Urls(rs)
      ensures FirstIndex(Urls(rs), d[i].url) < FirstIndex(Urls(rs), d[j].url)
    {
      assert d[i].url == Urls(d)[i] == us[i];
      assert d[j].url == Urls(d)[j] == us[j];
    }
  }

  /** The URLs of a concatenation are the URLs of its parts. */
  lemma UrlsConcat(a: seq<Record>, b: seq<Record>)
    ensures Urls(a + b) == Urls(a) + Urls(b)
  {
    var m: seq<Record> := a + b;
    assert forall i :: 0 <= i < |m| ==> Urls(m)[i] == (Urls(a) + Urls(b))[i];
  }

  /** The last record of `a + b` with a URL that `b` contains comes from `b`. */
  lemma LastRecordFromLaterList(a: seq<Record>, b: seq<Record>, u: string)
    requires u in Urls(b)
    ensures u in Urls(a + b)
    ensures (a + b)[LastIndexWithUrl(a + b, u)] in b
  {
    var m: seq<Record> := a + b;
    UrlsConcat(a, b);
    var kb := FirstIndex(Urls(b), u);
    assert m[|a| + kb] == b[kb];
    assert Urls(m)[|a| + kb] == u;
    var j := LastIndexWithUrl(m, u);
    assert j >= |a| + kb;
    assert m[j] == b[j - |a|];
  }

  /** A URL present in the second list survives, and only with a record of
      the second list: a later assignment overwrites any earlier value. */
  lemma DedupPrefersLaterRecord(a: seq<Record>, b: seq<Record>, u: string)
    requires u in Urls(b)
    ensures exists i :: 0 <= i < |DedupByUrl(a + b)| && DedupByUrl(a + b)[i].url == u
    ensures forall i :: 0 <= i < |DedupByUrl(a + b)| && DedupByUrl(a + b)[i].url == u ==> DedupByUrl(a + b)[i] in b
  {
    var m: seq<Record> := a + b;
    LastRecordFromLaterList(a, b, u);
    var d := DedupByUrl(m);
    assert forall i :: 0 <= i < |d| && d[i].url == u ==> d[i] in b by {
      DedupKeepsLastRecord(m);
    }
    assert exists i :: 0 <= i < |d| && d[i].url == u by {
      DedupByUrlKeys(m);
      assert u in Urls(d);
      var i0 :| 0 <= i0 < |Urls(d)| && Urls(d)[i0] == u;
      assert d[i0].url == u;
    }
  }
}

=== FILE: seqs.dfy ===
/** Sequence vocabulary shared by the filtering, de-duplication and
    link-selection steps: distinctness, first occurrences, order-preserving
    filtering and substring search. */
module Seqs {

  /** No element occurs twice. */
  predicate Distinct<T(==)>(s: seq<T>) {
    forall i, j :: 0 <= i < j < |s| ==> s[i] != s[j]
  }

  /** The position of the first occurrence of `x` in `s`. */
  function FirstIndex<T(==)>(s: seq<T>, x: T): (i: nat)
    requires x in s
    ensures i < |s| && s[i] == x
    ensures forall j :: 0 <= j < i ==> s[j] != x
  {
    if s[0] == x then 0
    else
      assert x in s[1..] by { var k :| 0 <= k < |s| && s[k] == x; assert s[1..][k - 1] == x; }
      1 + FirstIndex(s[1..], x)
  }

  /** Occurrences before the end of a prefix are not moved by appending. */
  lemma FirstIndexOfPrefix<T>(p: seq<T>, q: seq<T>, x: T)
    requires x in p
    ensures FirstIndex(p + q, x) == FirstIndex(p, x)
  {
    assert (p + q)[FirstIndex(p, x)] == x;
  }

  /** The list built by scanning `s` left to right and appending each element
      that the list does not hold yet. */
  function Unique<T(==)>(s: seq<T>): (u: seq<T>)
    ensures Distinct(u)
    ensures forall i :: 0 <= i < |u| ==> u[i] in s
    ensures forall i :: 0 <= i < |s| ==> s[i] in u
    ensures |u| <= |s|
  {
    if |s| == 0 then []
    else
      var front, last := Unique(s[..|s| - 1]), s[|s| - 1];
      assert s == s[..|s| - 1] + [last];
      if last in front then front else front + [last]
  }

  /** Scanning one more element appends it exactly when it is new. */
  lemma UniqueAppend<T>(s: seq<T>, x: T)
    ensures Unique(s + [x]) == if x in Unique(s) then Unique(s) else Unique(s) + [x]
  {
    assert (s + [x])[..|s|] == s;
  }

  /** `Unique` lists the elements in the order of their first occurrence. */
  lemma {:induction false} UniqueFollowsFirstOccurrences<T>(s: seq<T>)
    ensures forall i, j :: 0 <= i < j < |Unique(s)| ==>
              FirstIndex(s, Unique(s)[i]) < FirstIndex(s, Unique(s)[j])
  {
    if |s| > 0 {
      var front, last := s[..|s| - 1], s[|s| - 1];
      assert s == front + [last];
      UniqueFollowsFirstOccurrences(front);
      var u, uf := Unique(s), Unique(front);
      assert u == if last in uf then uf else uf + [last];
      forall i, j | 0 <= i < j < |u|
        ensures FirstIndex(s, u[i]) < FirstIndex(s, u[j])
      {
        assert u[i] == uf[i];
        FirstIndexOfPrefix(front, [last], uf[i]);
        if j < |uf| {
          assert u[j] == uf[j];
          FirstIndexOfPrefix(front, [last], uf[j]);
          assert FirstIndex(front, uf[i]) < FirstIndex(front, uf[j]);
        } else {
          assert u[j] == last && last !in front;
          assert FirstIndex(s, last) == |front|;
        }
      }
    }
  }

  /** The first `n` elements, or all of them when there are fewer: Python's `s[:n]`. */
  function Take<T>(s: seq<T>, n: nat): (r: seq<T>)
    ensures |r| <= n && |r| <= |s|
    ensures |s| <= n ==> r == s
    ensures forall i :: 0 <= i < |r| ==> r[i] == s[i]
  {
    if |s| <= n then s else s[..n]
  }

  /** Applies `f` to every element. */
  function Map<A, B>(s: seq<A>, f: A -> B): (r: seq<B>)
    ensures |r| == |s|
    ensures forall i :: 0 <= i < |s| ==> r[i] == f(s[i])
  {
    if |s| == 0 then [] else Map(s[..|s| - 1], f) + [f(s[|s| - 1])]
  }

  /** The elements satisfying `p`, scanned left to right. */
  function Filter<T>(s: seq<T>, p: T -> bool): (r: seq<T>)
    ensures |r| <= |s|
    ensures forall k :: 0 <= k < |r| ==> r[k] in s && p(r[k])
    ensures forall i :: 0 <= i < |s| && p(s[i]) ==> s[i] in r
  {
    if |s| == 0 then []
    else
      var front, last := Filter(s[..|s| - 1], p), s[|s| - 1];
      assert s == s[..|s| - 1] + [last];
      if p(last) then front + [last] else front
  }

  /** The positions of `s` whose elements satisfy `p`, ascending. */
  function KeptIndices<T>(s: seq<T>, p: T -> bool): seq<nat>
  {
    if |s| == 0 then []
    else if p(s[|s| - 1]) then KeptIndices(s[..|s| - 1], p) + [|s| - 1]
    else KeptIndices(s[..|s| - 1], p)
  }

  /** A position is kept exactly when its element satisfies `p`. */
  lemma {:induction false} KeptIndicesAreSatisfyingPositions<T>(s: seq<T>, p: T -> bool)
    ensures forall i :: 0 <= i < |s| ==> (i in KeptIndices(s, p) <==> p(s[i]))
    ensures forall k :: 0 <= k < |KeptIndices(s, p)| ==> KeptIndices(s, p)[k] < |s|
  {
    if |s| > 0 {
      var front := s[..|s| - 1];
      KeptIndicesAreSatisfyingPositions(front, p);
      var fx := KeptIndices(front, p);
      assert |s| - 1 !in fx;
      forall i | 0 <= i < |front|
        ensures i in KeptIndices(s, p) <==> p(s[i])
      {
        assert s[i] == front[i];
      }
    }
  }

  /** `Filter` is exactly the in-order subsequence of `s` at the positions
      whose elements satisfy `p`: rank `k` of the result is the element at
      the `k`-th satisfying position, and every satisfying position is used. */
  lemma {:induction false} FilterKeepsOrder<T>(s: seq<T>, p: T -> bool)
    ensures var ix, r := KeptIndices(s, p), Filter(s, p);
      && |ix| == |r|
      && (forall k :: 0 <= k < |ix| ==> ix[k] < |s| && r[k] == s[ix[k]])
      && (forall k, l :: 0 <= k < l < |ix| ==> ix[k] < ix[l])
      && (forall i :: 0 <= i < |s| ==> (i in ix <==> p(s[i])))
  {
    KeptIndicesAreSatisfyingPositions(s, p);
    FilterAtKeptIndices(s, p);
    KeptIndicesIncrease(s, p);
  }

  /** Rank `k` of the filtered list is the element at kept position `k`. */
  lemma {:induction false} FilterAtKeptIndices<T>(s: seq<T>, p: T -> bool)
    ensures |KeptIndices(s, p)| == |Filter(s, p)|
    ensures forall k :: 0 <= k < |KeptIndices(s, p)| ==>
              KeptIndices(s, p)[k] < |s| && Filter(s, p)[k] == s[KeptIndices(s, p)[k]]
  {
    if |s| > 0 {
      var front, last := s[..|s| - 1], s[|s| - 1];
      FilterAtKeptIndices(front, p);
      var fx, ff := KeptIndices(front, p), Filter(front, p);
      var ix, r := KeptIndices(s, p), Filter(s, p);
      assert ix == (if p(last) then fx + [|s| - 1] else fx);
      assert r == (if p(last) then ff + [last] else ff);
      forall k | 0 <= k < |ix|
        ensures ix[k] < |s| && r[k] == s[ix[k]]
      {
        if k < |fx| {
          assert ix[k] == fx[k] && r[k] == ff[k];
          assert s[fx[k]] == front[fx[k]];
        }
      }
    }
  }

  /** Kept positions are listed in increasing order. */
  lemma {:induction false} KeptIndicesIncrease<T>(s: seq<T>, p: T -> bool)
    ensures forall k, l :: 0 <= k < l < |KeptIndices(s, p)| ==> KeptIndices(s, p)[k] < KeptIndices(s, p)[l]
  {
    if |s| > 0 {
      var front := s[..|s| - 1];
      KeptIndicesIncrease(front, p);
      KeptIndicesAreSatisfyingPositions(front, p);
    }
  }

  /** `sub` occurs in `s` starting at position `i`. */
  ghost predicate OccursAt<T>(sub: seq<T>, s: seq<T>, i: int) {
    0 <= i && i + |sub| <= |s| && s[i..i + |sub|] == sub
  }

  /** `p` is a prefix of `s`. */
  predicate IsPrefix<T(==)>(p: seq<T>, s: seq<T>) {
    |p| <= |s| && s[..|p|] == p
  }

  /** A prefix of `a + b` has `a` as a prefix too. */
  lemma PrefixOfExtension<T>(a: seq<T>, b: seq<T>, s: seq<T>)
    requires IsPrefix(a + b, s)
    ensures IsPrefix(a, s)
  {
    assert s[..|a|] == (a + b)[..|a|];
  }

  /** `sub` occurs somewhere in `s`: Python's `sub in s` on strings. */
  predicate IsSubstring<T(==)>(sub: seq<T>, s: seq<T>)
    decreases |s|
  {
    IsPrefix(sub, s) || (|s| > 0 && IsSubstring(sub, s[1..]))
  }

  /** The scanning definition agrees with "occurs at some position". */
  lemma {:induction false} IsSubstringIffOccurs<T>(sub: seq<T>, s: seq<T>)
    ensures IsSubstring(sub, s) <==> exists i :: OccursAt(sub, s, i)
    decreases |s|
  {
    if IsPrefix(sub, s) {
      assert OccursAt(sub, s, 0);
    } else if |s| > 0 {
      IsSubstringIffOccurs(sub, s[1..]);
      if IsSubstring(sub, s[1..]) {
        var i :| OccursAt(sub, s[1..], i);
        assert s[1..][i..i + |sub|] == s[i + 1..i + 1 + |sub|];
        assert OccursAt(sub, s, i + 1);
      }
      if i :| OccursAt(sub, s, i) {
        assert i != 0;
        assert s[1..][i - 1..i - 1 + |sub|] == s[i..i + |sub|];
        assert OccursAt(sub, s[1..], i - 1);
      }
    }
  }

  /** Any prefix of an occurring sequence occurs too. */
  lemma {:induction false} PrefixOfSubstring<T>(p: seq<T>, sub: seq<T>, s: seq<T>)
    requires IsPrefix(p, sub) && IsSubstring(sub, s)
    ensures IsSubstring(p, s)
  {
    IsSubstringIffOccurs(sub, s);
    var i :| OccursAt(sub, s, i);
    assert s[i..i + |p|] == sub[..|p|];
    assert OccursAt(p, s, i);
    IsSubstringIffOccurs(p, s);
  }

  /** The pieces written one after another, as a loop of `text += piece` builds them. */
  function Flatten<T>(pieces: seq<seq<T>>): seq<T> {
    if |pieces| == 0 then [] else Flatten(pieces[..|pieces| - 1]) + pieces[|pieces| - 1]
  }

  /** Flattening distributes over concatenation of the piece lists. */
  lemma {:induction false} FlattenConcat<T>(a: seq<seq<T>>, b: seq<seq<T>>)
    ensures Flatten(a + b) == Flatten(a) + Flatten(b)
    decreases |b|
  {
    if |b| > 0 {
      var b', last := b[..|b| - 1], b[|b| - 1];
      assert (a + b)[..|a + b| - 1] == a + b';
      FlattenConcat(a, b');
    } else {
      assert a + b == a;
    }
  }

  /** Piece `k` sits, unchanged, right after the flattening of the pieces before it. */
  lemma PieceInFlatten<T>(pieces: seq<seq<T>>, k: nat)
    requires k < |pieces|
    ensures var start := |Flatten(pieces[..k])|;
      start + |pieces[k]| <= |Flatten(pieces)| &&
      Flatten(pieces)[start..start + |pieces[k]|] == pieces[k]
  {
    assert pieces == pieces[..k] + [pieces[k]] + pieces[k + 1..];
    FlattenConcat(pieces[..k] + [pieces[k]], pieces[k + 1..]);
    FlattenConcat(pieces[..k], [pieces[k]]);
    assert Flatten([pieces[k]]) == pieces[k] by {
      assert [pieces[k]][..0] == [];
    }
  }
}

=== FILE: wrappers.dfy ===
/** Optional values, used for JSON keys that may be absent and for
    library calls that may raise. */
module Wrappers {

  datatype Option<+T> = None | Some(value: T) {

    /** The value, or `default` when absent: Python's `dict.get(key, default)`. */
    function GetOr(default: T): T {
      match this
      case Some(v) => v
      case None => default
    }
  }
}
